=== FILE: README.md ===
# UwUPnP gateway model

This is a Dafny model of `Gateway`, the class at the core of UwUPnP. It represents one UPnP Internet Gateway Device on the local network. The model covers the class's whole life:

- **Construction.** The constructor reads the `LOCATION` header of an SSDP discovery reply (`GetLocation`). It then searches the device description found at that location for the last WANIPConnection or WANPPPConnection service. It takes that service's type and control URL and makes the URL absolute against the text of the location before its path, which for an `http://` location is its scheme, host and port (`GetInfo`).
- **Requests.** Every operation is one SOAP call. The model builds the request envelope (`GetSoapRequest`, `BuildArgString`) and the `SOAPAction` header (`SendRequest`).
- **Replies.** A reply whose HTTP status is outside 200–299 is a transport failure. A 200 reply is flattened into a name → text map, and a fault is raised when it holds an `errorCode`. Any other 2xx reply gives no result (`GetResponse`).
- **Operations.** The four public operations `ExternalIP`, `Open`, `Close` and `IsMapped` are built on this.

Each piece of logic is a pure function whose contract relates its result to an independent reading of the inputs:

- **Discovery reply.** `GetLocation` is characterised by the first location line of the reply (`Ssdp.FindLocationFirst`, `Ssdp.FindLocationNone`).
- **Service resolution.** The overwrite loops of `GetInfo` and `GetResponse` are characterised by one "last match wins" reference fold (`LastWins.Last`).
- **Requests.** The request builders have parsers as partners. Each request builder's contract states that its envelope or `SOAPAction` header reads back as what it was built from. The decimal port text reads back as the port by the lemma `Decimal.ParseRender`.
- **Facade operations.** Each operation's result is stated in terms of the reply the transport gives.
- **Worked examples.** The `Scenarios` module takes a concrete discovery reply, a concrete device description and concrete SOAP replies through the model.

Modules, one per file:

| file | module | role |
|---|---|---|
| results.dfy | `Results` | `Option`, `Result`, and the error kinds: unsupported gateway, SOAP fault with its code, no result, and an HTTP status outside 200–299 |
| strings.dfy | `Strings` | the .NET string operations the class uses: `Split`, `Trim`, `ToLowerInvariant`, `IndexOf`, `StartsWith`, case-insensitive `Contains`; also a backward character search, which the `SOAPAction` reader uses to split at the last `#` |
| decimal.dfy | `Decimal` | rendering a port number as decimal text, and reading it back |
| last_wins.dfy | `LastWins` | the reference fold: the value of the last element a selector accepts |
| xml.dfy | `Xml` | a parsed XML tree, and its elements in document order (`Descendants()`) |
| ssdp.dfy | `Ssdp` | `GetLocation` |
| service_resolver.dfy | `ServiceResolver` | `GetInfo` |
| soap.dfy | `Soap` | request envelope, `SOAPAction` header, `GetResponse` |
| gateway.dfy | `Gateway` | constructor, `RunCommand`, `ExternalIP`, `Open`, `Close`, `IsMapped` |
| scenarios.dfy | `Scenarios` | worked examples |

Behaviours of the code that the model keeps:

- The reply's text values are not trimmed.
- Only a reply with status exactly 200 is read. Another 2xx status gives no result, and a status outside 200–299 fails in the transport.
- The first `location` header decides, even if its URL has no path and so fails.
- The path of a location is taken to start at the first `/` from index 7, the length of `http://`. For an `https://` location that `/` is the second one of the scheme, so a control URL resolves without the host: `https://gw/desc.xml` with `/ctl` gives `https://ctl`.
- The element name `service` is matched case-sensitively, while the child names are trimmed and lower-cased.

In `GetLocation`, the guard `line.Length >= name.Length` always holds, so its `null` branch is never taken. The model leaves it out.

## Model

| member | source | states |
|---|---|---|
| Strings.Trim | UwUPnP/Gateway.cs:33 | the result is a contiguous slice of the input, with only white space cut from either end, and it neither starts nor ends with white space |
| Strings.Split | UwUPnP/Gateway.cs:33 | the pieces are at least one, contain no separator, and joined with the separator give back the input |
| Strings.SplitFirst | UwUPnP/Gateway.cs:33 | splitting at the first separator gives the text before it, then the split of the rest |
| Strings.SplitLast | UwUPnP/Gateway.cs:33 | text without a separator splits into itself alone |
| Strings.IndexOfFrom | UwUPnP/Gateway.cs:40 | finds the first occurrence at or after the start index; absent exactly when there is none |
| Strings.Lower | UwUPnP/Gateway.cs:48 | case folding keeps the length; its partner `Strings.LowerSpec` gives the character at each index |
| Strings.LowerSpec | UwUPnP/Gateway.cs:48 | case folding keeps the length and lower-cases each character in place |
| Strings.ContainsIgnoreCaseSpec | UwUPnP/Gateway.cs:88 | the case-insensitive `Contains` holds exactly when the case-folded needle occurs at some index of the case-folded text |
| Ssdp.PathStart | UwUPnP/Gateway.cs:50 | the first `/` at or after index 7, with no `/` between index 7 and it; absent exactly when none exists |
| Ssdp.Origin | UwUPnP/Gateway.cs:106-108 | the text of a URL before its path, which for an `http://` URL is its scheme, host and port: a prefix of it at least 7 characters long, followed in the URL by a `/`, with no `/` after index 7 |
| Ssdp.FindLocation | UwUPnP/Gateway.cs:35-57 | a returned location is trimmed and has a path; every failure is "unsupported gateway" |
| Ssdp.GetLocation | UwUPnP/Gateway.cs:31-58 | a returned location is trimmed and has a path; every failure is "unsupported gateway" |
| Ssdp.ScanStep | UwUPnP/Gateway.cs:35-55 | a line that is not a location header is skipped; a location header ends the scan with its value |
| Ssdp.FindLocationFirst | UwUPnP/Gateway.cs:35-55 | the first location header decides: its trimmed value if that has a path, otherwise failure; later headers are never consulted |
| Ssdp.FindLocationNone | UwUPnP/Gateway.cs:35-57 | without a location header the reply is rejected as "unsupported gateway" |
| Ssdp.GetLocationSpec | UwUPnP/Gateway.cs:31-58 | the location of a reply in terms of its `\n`-separated lines: the first location line decides, and without one the gateway is unsupported |
| LastWins.Last | UwUPnP/Gateway.cs:86-92 | absent exactly when no element is selected; otherwise the value of the last selected element |
| LastWins.LastHasWitness | UwUPnP/Gateway.cs:86-92 | when some element is selected, a last selected element exists |
| Xml.Elements | UwUPnP/Gateway.cs:63 | every entry of the list is an element; its order and completeness are stated by `Xml.ElementsCons`, `Xml.ElementsAppend` and `Xml.ElementsComplete` |
| Xml.ElementsCons | UwUPnP/Gateway.cs:63 | a node's elements come before those of its following siblings: an element first, then its descendants |
| Xml.ElementsAppend | UwUPnP/Gateway.cs:63 | the element list of two sibling runs is the concatenation of their element lists |
| Xml.ElementsComplete | UwUPnP/Gateway.cs:63 | every element of a sibling run, and every element below it, is in the run's element list |
| ServiceResolver.ScanChildrenLastWins | UwUPnP/Gateway.cs:69-84 | within one service, each field holds the trimmed text of the last child whose trimmed, lower-cased name matches it |
| ServiceResolver.Candidate | UwUPnP/Gateway.cs:67-93 | a service that offers a (type, control URL) pair is a `service` element whose type names a WAN IP or WAN PPP connection; its partner `ServiceResolver.CandidateSpec` gives the converse |
| ServiceResolver.CandidateSpec | UwUPnP/Gateway.cs:67-93 | a node counts as the gateway's service exactly when it is a `service` element with both fields set and a type naming a WAN IP or WAN PPP connection, in any case |
| ServiceResolver.ResolveControlUrl | UwUPnP/Gateway.cs:101-108 | the absolute control URL has the location's text before its path (its scheme, host and port for an `http://` location), then a `/`, then the control URL with one leading `/` removed |
| ServiceResolver.ChooseService | UwUPnP/Gateway.cs:63-94 | absent exactly when no element of the description qualifies; otherwise the pair offered by the last qualifying element, whose type names a WAN connection |
| ServiceResolver.GetInfo | UwUPnP/Gateway.cs:60-111 | fails as "unsupported gateway" exactly when no element qualifies; otherwise gives the type and resolved control URL of the last qualifying service |
| Soap.ArgString | UwUPnP/Gateway.cs:113 | the argument text reads back as the same key/value pairs in the same order, when no key holds `>` and no value holds `<` |
| Soap.ParseArgsStep | UwUPnP/Gateway.cs:113 | reading one argument element consumes exactly that element |
| Soap.ParseBodyOf | UwUPnP/Gateway.cs:129-134 | the body after the namespace reads back as its arguments, once the action's closing tags are found |
| Soap.ParseNamespaceOf | UwUPnP/Gateway.cs:129 | the namespace attribute reads back as the service type up to its closing quote |
| Soap.SoapRequest | UwUPnP/Gateway.cs:124-134 | the envelope reads back as the service type, action and arguments it was built from, when the action has no space, the type no `"` and the arguments need no escaping |
| Soap.SoapAction | UwUPnP/Gateway.cs:145 | the `SOAPAction` header reads back as the service type and the action, split at the last `#`, when the action has no `#` |
| Soap.Flatten | UwUPnP/Gateway.cs:170-176 | every key maps to the text of the last element of that name whose first node is text, and is absent when there is none |
| Soap.GetResponse | UwUPnP/Gateway.cs:153-184 | a transport failure exactly when the status is outside 200–299; no result exactly for another 2xx status than 200; a fault exactly when a 200 reply holds an `errorCode`, carrying the last one's text; a 200 reply without one gives a map holding, for every key, the text of its last element |
| Decimal.Render | UwUPnP/Gateway.cs:193 | the decimal text of a number is non-empty, all digits and without a leading zero |
| Decimal.ParseRender | UwUPnP/Gateway.cs:193 | the decimal text of a number reads back as that number |
| Decimal.RenderInjective | UwUPnP/Gateway.cs:193 | distinct port numbers render differently |
| Gateway.New | UwUPnP/Gateway.cs:22-29 | construction succeeds exactly when the reply has a location and its description a qualifying service; every failure is "unsupported gateway"; the stored service type and control URL are those of the last qualifying service, the URL resolved against the location, so it shares the location's origin |
| Gateway.CommandRequest | UwUPnP/Gateway.cs:136-145 | the command is a `text/xml` POST to the control URL whose `SOAPAction` header and body read back as the service type, action and arguments, whenever that text needs no escaping |
| Gateway.RunCommand | UwUPnP/Gateway.cs:115-122 | the command's result is its reply's: a transport failure outside 200–299, no result for another 2xx status, a fault with the last error code of a 200 reply, or else a map holding, for every key, the text of its last element |
| Gateway.MappingKeyWellFormed | UwUPnP/Gateway.cs:201-205 | the mapping key's arguments need no escaping |
| Gateway.ExternalIP | UwUPnP/Gateway.cs:188 | succeeds exactly on a fault-free 200 reply, giving its last `NewExternalIPAddress` text, absent when there is none; a fault carries the last error code; a status outside 200–299 is a transport failure, another 2xx status gives no result |
| Gateway.ExternalIPSends | UwUPnP/Gateway.cs:188 | the call sends `GetExternalIPAddress` with no arguments to the control URL |
| Gateway.Open | UwUPnP/Gateway.cs:190-199 | fails exactly on a status outside 200–299, as a transport failure, or on a fault in a 200 reply, with its last error code; any other 2xx reply is ignored |
| Gateway.OpenArgsRead | UwUPnP/Gateway.cs:190-199 | the eight arguments read as the protocol, the port as external and internal port, the local address, enabled, the description and an unlimited lease |
| Gateway.OpenArgsWellFormed | UwUPnP/Gateway.cs:190-199 | the arguments need no escaping when neither the local address nor the description holds `<` |
| Gateway.OpenSends | UwUPnP/Gateway.cs:190-199 | the call sends `AddPortMapping` with the eight arguments in order to the control URL |
| Gateway.Close | UwUPnP/Gateway.cs:201-205 | fails exactly on a status outside 200–299, as a transport failure, or on a fault in a 200 reply, with its last error code; any other 2xx reply is ignored |
| Gateway.CloseSends | UwUPnP/Gateway.cs:201-205 | the call sends `DeletePortMapping` with the empty remote host, the protocol and the port, to the control URL |
| Gateway.IsMapped | UwUPnP/Gateway.cs:207-211 | succeeds exactly on a fault-free 200 reply, and is true exactly when that reply holds `NewInternalPort`; a fault is an error and not `false`; a status outside 200–299 is a transport failure, another 2xx status gives no result |
| Gateway.IsMappedSends | UwUPnP/Gateway.cs:207-211 | the call sends `GetSpecificPortMappingEntry` with the same three arguments as `Close` |
| Scenarios.LocationScenario | UwUPnP/Gateway.cs:31-58 | a status line followed by `LOCATION: http://192.168.1.1:5000/desc.xml` yields that URL |
| Scenarios.ServiceOffers | UwUPnP/Gateway.cs:67-93 | a `service` element with a trimmed WAN connection type and control URL offers exactly that pair |
| Scenarios.SecondServiceWins | UwUPnP/Gateway.cs:63-94 | of two qualifying services in a list, the later one is chosen |
| Scenarios.IpTypeQualifies | UwUPnP/Gateway.cs:88 | `urn:schemas-upnp-org:service:WANIPConnection:1` counts as a WAN connection type |
| Scenarios.ResolveScenario | UwUPnP/Gateway.cs:60-111 | a WANIPConnection service with control URL `/ctl/IPConn` described at port 5000 resolves to `http://192.168.1.1:5000/ctl/IPConn` |
| Scenarios.HttpsLocationScenario | UwUPnP/Gateway.cs:101-108 | an `https://gw/desc.xml` location keeps only `https:/` before its path, so `/ctl` resolves to `https://ctl` |
| Scenarios.ControlUrlScenario | UwUPnP/Gateway.cs:101-108 | `/ctl/IPConn` and `ctl/IPConn` both resolve to `http://192.168.1.1:5000/ctl/IPConn`: a missing leading `/` is added, an existing one is not doubled |
| Scenarios.FaultScenario | UwUPnP/Gateway.cs:178-181 | a 200 reply with `errorCode` 714 is a fault with code `714` |
| Scenarios.ExternalIPScenario | UwUPnP/Gateway.cs:188 | a reply with `NewExternalIPAddress` 203.0.113.5 gives that address |
| Scenarios.ServerErrorScenario | UwUPnP/Gateway.cs:190-199 | an `Open` whose reply has status 500 fails as a transport failure, even though the reply body holds an `errorCode` |

## Left out

- HTTP transport. `WebRequest`, the request stream, ASCII encoding and `Content-Length` are left out. The transport is a function parameter `post` from the request (verb, URL, content type, `SOAPAction`, body) to the reply (status, parsed document). A status outside 200–299, which `GetResponse()` raises as a `WebException`, is the failure `HttpFailure(status)`. Redirects and network errors are not modelled.
- XML loading. `XDocument.Load` for the description and the reply is not modelled. The description is a function parameter `fetch` from location to parsed tree. Replies arrive already parsed. Element names keep only their local part, so namespaces are dropped, and attributes are not represented. Comments and processing instructions are an opaque `Other` node.
- Addresses. `IPAddress.Parse` and `IPAddress.ToString` are left out. `Gateway.ExternalIP` returns the address text, and the local address is opaque text.
- Gateway.New: the `LocalIP` property only echoes the stored local address, so it has no row of its own.
- Protocol text. `Protocol` renders as `TCP`/`UDP`. The enumeration is not part of this model, and its member names are assumed.
- Ssdp.PathStart: text is a sequence of Unicode scalar values, not of UTF-16 code units as in .NET. So the index 7 of `IndexOf('/', 7)` can differ when a character outside the Basic Multilingual Plane comes before it. For example, .NET finds a path in `\U{1F600}x://h/p`, whose emoji is two code units, but the model finds none. Valid URIs are ASCII, where the two counts agree.
- Ssdp.Origin: for the same reason, the slice before the path is taken in scalar values. For `\U{1F600}x://h/p` .NET would take `\U{1F600}x://h` as the origin, while the model rejects the location.
- Culture. `ToLowerInvariant`, `StartsWith` and the invariant-culture case-insensitive `Contains` are modelled as ASCII case folding and ordinal comparison. `Trim` uses the full `Char.IsWhiteSpace` list.
- Exceptions. Exception types and messages collapse into four error kinds. Every "Unsupported Gateway" exception, including an `IndexOf` that throws on a location shorter than 7 characters, becomes `UnsupportedGateway`. The thrown error code becomes `Fault(code)`. The null dereference after a 2xx reply other than 200 in `ExternalIP` and `IsMapped` becomes `NoResult`. The `WebException` for a status outside 200–299 becomes `HttpFailure(status)`.
- ServiceResolver.GetInfo: requires the location to have a path. The constructor only calls it with a location that `GetLocation` has already checked.
- Soap.SoapRequest: promises the read-back only when there is no space in the action, no `"` in the service type, no `>` in keys and no `<` in values. The source does not escape XML, so other text does not read back.
- Gateway.CommandRequest: promises the read-back under the same conditions as `Soap.SoapRequest` and `Soap.SoapAction`.
- Soap.ArgString: promises the read-back only when no key holds `>` and no value holds `<`, for the same reason.
- Gateway.OpenSends: requires no `"` in the service type and no `<` in the local address or the description, for the same reason.
- Gateway.CloseSends: requires no `"` in the service type, for the same reason.
- Gateway.IsMappedSends: requires no `"` in the service type, for the same reason.
- Gateway.ExternalIPSends: requires no `"` in the service type, for the same reason.
- Soap.SoapAction: promises the read-back only when there is no `#` in the action, so that the split at the last `#` is unambiguous.
- Concurrency and resource disposal (`using`) have no counterpart in a pure model.

=== FILE: decimal.dfy ===
/** Decimal rendering of the integers the facade puts on the wire (the
    `ushort` port and the constants 1 and 0), and its inverse. */
module Decimal {
  import opened Results

  predicate IsDigit(c: char) {
    '0' <= c <= '9'
  }

  predicate AllDigits(s: string) {
    forall i :: 0 <= i < |s| ==> IsDigit(s[i])
  }

  function Digit(d: nat): (c: char)
    requires d < 10
    ensures IsDigit(c)
  {
    ('0' as int + d) as char
  }

  function DigitValue(c: char): (d: nat)
    requires IsDigit(c)
    ensures d < 10 && Digit(d) == c
  {
    c as int - '0' as int
  }

  /** `ToString()` of a non-negative integer: its digits, most significant
      first, with no sign, padding or group separator. */
  function Render(n: nat): (s: string)
    ensures |s| >= 1 && AllDigits(s)
    ensures |s| > 1 ==> s[0] != '0'
    decreases n
  {
    if n < 10 then [Digit(n)] else Render(n / 10) + [Digit(n % 10)]
  }

  /** The number a string of digits denotes. */
  function Value(s: string): nat
    requires AllDigits(s)
    decreases |s|
  {
    if |s| == 0 then 0 else 10 * Value(s[..|s| - 1]) + DigitValue(s[|s| - 1])
  }

  /** How a receiver reads a decimal field back. */
  function Parse(s: string): Option<nat> {
    if |s| > 0 && AllDigits(s) then Some(Value(s)) else None
  }

  /** Reading a rendered number gives the number back. */
  lemma {:induction false} ParseRender(n: nat)
    ensures Parse(Render(n)) == Some(n)
  {
    if n >= 10 {
      ParseRender(n / 10);
      var s := Render(n);
      assert s[..|s| - 1] == Render(n / 10);
      assert DigitValue(s[|s| - 1]) == n % 10;
      assert Value(s) == 10 * (n / 10) + n % 10;
    }
  }

  /** Rendering is injective: distinct numbers never share a rendering. */
  lemma RenderInjective(m: nat, n: nat)
    requires Render(m) == Render(n)
    ensures m == n
  {
    ParseRender(m);
    ParseRender(n);
  }
}

=== FILE: gateway.dfy ===
/** The gateway facade: construction from a discovery reply, and the four
    port-mapping operations, each one SOAP call over an abstract transport. */
module Gateway {
  import opened Results
  import opened Xml
  import opened LastWins
  import opened Ssdp
  import opened ServiceResolver
  import opened Soap
  import Decimal

  /** The transport protocol of a mapping. Its wire text is taken to be the
      enumeration member's name. */
  datatype Protocol = TCP | UDP

  function ProtocolText(p: Protocol): string {
    match p
    case TCP => "TCP"
    case UDP => "UDP"
  }

  /** How a gateway reads the protocol field back. */
  function ParseProtocol(s: string): Option<Protocol> {
    if s == "TCP" then Some(TCP) else if s == "UDP" then Some(UDP) else None
  }

  /** An unsigned 16-bit port number. */
  type Port = n: nat | n < 0x1_0000

  /** What a built gateway holds: the caller's address (opaque text), and the
      service type and absolute control URL resolved at construction. */
  datatype Binding = Binding(localIP: string, serviceType: string, controlUrl: string)

  /** The HTTP request `SendRequest` prepares. */
  datatype Request = Request(verb: string, url: string, contentType: string, soapAction: string, body: string)

  const GetExternalIPAddress := "GetExternalIPAddress"
  const AddPortMapping := "AddPortMapping"
  const DeletePortMapping := "DeletePortMapping"
  const GetSpecificPortMappingEntry := "GetSpecificPortMappingEntry"

  /** The action names hold neither a space nor a `#`, so requests naming them
      read back. */
  lemma ActionNamesPlain()
    ensures ' ' !in GetExternalIPAddress && '#' !in GetExternalIPAddress
    ensures ' ' !in AddPortMapping && '#' !in AddPortMapping
    ensures ' ' !in DeletePortMapping && '#' !in DeletePortMapping
    ensures ' ' !in GetSpecificPortMappingEntry && '#' !in GetSpecificPortMappingEntry
  {
  }

  /** The constructor: the location from the discovery reply `data`, then the
      service found in the description `fetch` returns for that location. Any
      failure is `UnsupportedGateway`; on success the binding holds the type
      of the last qualifying service and its control URL made absolute, which
      shares the origin of the location (its scheme, host and port when the
      location is an `http://` URL). */
  function New(localIP: string, data: string, fetch: string -> seq<Node>): (r: Result<Binding>)
    ensures r.Err? ==> r.error == UnsupportedGateway
    ensures r.Ok? <==> GetLocation(data).Ok? && ChooseService(fetch(GetLocation(data).value)).Some?
    ensures r.Ok? ==>
      && r.value.localIP == localIP
      && HasPath(r.value.controlUrl)
      && Origin(r.value.controlUrl) == Origin(GetLocation(data).value)
    ensures GetLocation(data).Ok? ==>
      var location := GetLocation(data).value;
      var els := Elements(fetch(location));
      forall i :: LastSelected(els, Candidate, i) ==>
        var chosen := Candidate(els[i]).value;
        r == Ok(Binding(localIP, chosen.0, ResolveControlUrl(location, chosen.1)))
  {
    var location :- GetLocation(data);
    var info :- GetInfo(location, fetch(location));
    Ok(Binding(localIP, info.0, info.1))
  }

  /** The POST `RunCommand` sends for `action` with `args` (`SendRequest`):
      a `text/xml` request to the binding's control URL whose `SOAPAction`
      header and body read back as the binding's service type, the action and
      the arguments, whenever that text survives unescaped. */
  function CommandRequest(b: Binding, action: string, args: Args): (req: Request)
    ensures req.verb == "POST" && req.url == b.controlUrl && req.contentType == "text/xml"
    ensures '#' !in action ==> ParseSoapAction(req.soapAction) == Some((b.serviceType, action))
    ensures ' ' !in action && '"' !in b.serviceType && WellFormedArgs(args) ==>
      ParseSoapRequest(req.body) == Some((b.serviceType, action, args))
  {
    Request("POST", b.controlUrl, "text/xml", SoapAction(b.serviceType, action), SoapRequest(b.serviceType, action, args))
  }

  /** The request for a plain action name and well-formed arguments reads
      back completely. */
  lemma RequestReadsBack(b: Binding, action: string, args: Args)
    requires ' ' !in action && '#' !in action && '"' !in b.serviceType && WellFormedArgs(args)
    ensures var req := CommandRequest(b, action, args);
      && req.url == b.controlUrl
      && ParseSoapAction(req.soapAction) == Some((b.serviceType, action))
      && ParseSoapRequest(req.body) == Some((b.serviceType, action, args))
  {
  }

  /** The reply the transport gives to the request for `action`. */
  function Reply(b: Binding, post: Request -> Response, action: string, args: Args): Response {
    post(CommandRequest(b, action, args))
  }

  /** `RunCommand`: one request, with `post` standing for the HTTP transport,
      and the reply read as `GetResponse` reads it. */
  function RunCommand(b: Binding, post: Request -> Response, action: string, args: Args): (r: Result<Option<map<string, string>>>)
    ensures var resp := Reply(b, post, action, args);
      var els := Elements(resp.document);
      && (r == Err(HttpFailure(resp.status)) <==> !IsSuccessStatus(resp.status))
      && (r == Ok(None) <==> IsSuccessStatus(resp.status) && resp.status != StatusOk)
      && (r.Err? && r.error.Fault? <==> resp.status == StatusOk && Last(els, LeafNamed(ErrorCodeKey)).Some?)
      && (r.Err? && r.error.Fault? ==> r.error.code == Last(els, LeafNamed(ErrorCodeKey)).value)
      && (r.Err? ==> r.error.Fault? || r.error.HttpFailure?)
      && (resp.status == StatusOk && Last(els, LeafNamed(ErrorCodeKey)).None? ==> r.Ok? && r.value.Some?)
      && (r.Ok? && r.value.Some? ==> forall key :: Lookup(r.value.value, key) == Last(els, LeafNamed(key)))
  {
    GetResponse(post(CommandRequest(b, action, args)))
  }

  /** The (remote host, protocol, external port) triple that names a mapping. */
  function MappingKey(protocol: Protocol, port: Port): Args {
    [("NewRemoteHost", ""), ("NewProtocol", ProtocolText(protocol)), ("NewExternalPort", Decimal.Render(port))]
  }

  function OpenArgs(b: Binding, protocol: Protocol, port: Port, description: string): Args {
    [ ("NewRemoteHost", ""),
      ("NewProtocol", ProtocolText(protocol)),
      ("NewExternalPort", Decimal.Render(port)),
      ("NewInternalClient", b.localIP),
      ("NewInternalPort", Decimal.Render(port)),
      ("NewEnabled", Decimal.Render(1)),
      ("NewPortMappingDescription", description),
      ("NewLeaseDuration", Decimal.Render(0)) ]
  }

  function Keys(args: Args): seq<string> {
    seq(|args|, i requires 0 <= i < |args| => args[i].0)
  }

  /** `ExternalIP`: the `NewExternalIPAddress` text of the reply (address
      parsing is not modelled), absent when the reply has none. A status
      outside 200-299 fails in the transport; any other status than 200 gives
      no reply map, which is dereferenced and fails with `NoResult`. */
  function ExternalIP(b: Binding, post: Request -> Response): (r: Result<Option<string>>)
    ensures var resp := Reply(b, post, GetExternalIPAddress, []);
      var els := Elements(resp.document);
      var fault := Last(els, LeafNamed(ErrorCodeKey));
      && (r == Err(HttpFailure(resp.status)) <==> !IsSuccessStatus(resp.status))
      && (r == Err(NoResult) <==> IsSuccessStatus(resp.status) && resp.status != StatusOk)
      && (r.Ok? <==> resp.status == StatusOk && fault.None?)
      && (r.Err? && r.error.Fault? <==> resp.status == StatusOk && fault.Some?)
      && (r.Err? && r.error.Fault? ==> r.error.code == fault.value)
      && (r.Ok? ==> r.value == Last(els, LeafNamed("NewExternalIPAddress")))
  {
    var reply :- RunCommand(b, post, GetExternalIPAddress, []);
    match reply
    case None => Err(NoResult)
    case Some(m) => Ok(Lookup(m, "NewExternalIPAddress"))
  }

  /** `Open`: adds the mapping. A status outside 200-299 fails in the
      transport, a 200 reply with an `errorCode` is a fault, and any other
      reply is success: its map, or the lack of one, is discarded. */
  function Open(b: Binding, post: Request -> Response, protocol: Protocol, port: Port, description: string): (r: Result<()>)
    ensures var resp := Reply(b, post, AddPortMapping, OpenArgs(b, protocol, port, description));
      var fault := Last(Elements(resp.document), LeafNamed(ErrorCodeKey));
      && (r.Err? <==> !IsSuccessStatus(resp.status) || (resp.status == StatusOk && fault.Some?))
      && (!IsSuccessStatus(resp.status) ==> r == Err(HttpFailure(resp.status)))
      && (resp.status == StatusOk && fault.Some? ==> r == Err(Fault(fault.value)))
  {
    match RunCommand(b, post, AddPortMapping, OpenArgs(b, protocol, port, description))
    case Err(e) => Err(e)
    case Ok(_) => Ok(())
  }

  /** `Close`: deletes the mapping named by (protocol, port), failing as
      `Open` does. */
  function Close(b: Binding, post: Request -> Response, protocol: Protocol, port: Port): (r: Result<()>)
    ensures var resp := Reply(b, post, DeletePortMapping, MappingKey(protocol, port));
      var fault := Last(Elements(resp.document), LeafNamed(ErrorCodeKey));
      && (r.Err? <==> !IsSuccessStatus(resp.status) || (resp.status == StatusOk && fault.Some?))
      && (!IsSuccessStatus(resp.status) ==> r == Err(HttpFailure(resp.status)))
      && (resp.status == StatusOk && fault.Some? ==> r == Err(Fault(fault.value)))
  {
    match RunCommand(b, post, DeletePortMapping, MappingKey(protocol, port))
    case Err(e) => Err(e)
    case Ok(_) => Ok(())
  }

  /** `IsMapped`: true exactly when the reply has a `NewInternalPort` leaf; a
      fault is an error, not `false`; a status outside 200-299 fails in the
      transport, and another status than 200 fails with `NoResult`. */
  function IsMapped(b: Binding, post: Request -> Response, protocol: Protocol, port: Port): (r: Result<bool>)
    ensures var resp := Reply(b, post, GetSpecificPortMappingEntry, MappingKey(protocol, port));
      var els := Elements(resp.document);
      var fault := Last(els, LeafNamed(ErrorCodeKey));
      && (r == Err(HttpFailure(resp.status)) <==> !IsSuccessStatus(resp.status))
      && (r == Err(NoResult) <==> IsSuccessStatus(resp.status) && resp.status != StatusOk)
      && (r.Ok? <==> resp.status == StatusOk && fault.None?)
      && (r.Err? && r.error.Fault? <==> resp.status == StatusOk && fault.Some?)
      && (r.Err? && r.error.Fault? ==> r.error.code == fault.value)
      && (r == Ok(true) <==> resp.status == StatusOk && fault.None? && Last(els, LeafNamed("NewInternalPort")).Some?)
  {
    var reply :- RunCommand(b, post, GetSpecificPortMappingEntry, MappingKey(protocol, port));
    match reply
    case None => Err(NoResult)
    case Some(m) => Ok("NewInternalPort" in m)
  }

  // ---- What the gateway receives ----

  /** The arguments naming a mapping, as the gateway reads them. */
  ghost predicate ReadsAsMappingKey(args: Args, protocol: Protocol, port: Port) {
    && Keys(args) == ["NewRemoteHost", "NewProtocol", "NewExternalPort"]
    && args[0].1 == ""
    && ParseProtocol(args[1].1) == Some(protocol)
    && Decimal.Parse(args[2].1) == Some(port)
  }

  lemma MappingKeyWellFormed(protocol: Protocol, port: Port)
    ensures WellFormedArgs(MappingKey(protocol, port))
  {
    var args := MappingKey(protocol, port);
    assert '<' !in Decimal.Render(port) by {
      var s := Decimal.Render(port);
      assert forall i :: 0 <= i < |s| ==> s[i] != '<';
    }
    assert '<' !in ProtocolText(protocol);
  }

  /** `Close` sends `DeletePortMapping` with the empty remote host, the
      protocol and the port, in that order. */
  lemma CloseSends(b: Binding, protocol: Protocol, port: Port)
    requires '"' !in b.serviceType
    ensures var req := CommandRequest(b, DeletePortMapping, MappingKey(protocol, port));
      && req.url == b.controlUrl
      && ParseSoapAction(req.soapAction) == Some((b.serviceType, "DeletePortMapping"))
      && ParseSoapRequest(req.body) == Some((b.serviceType, "DeletePortMapping", MappingKey(protocol, port)))
      && ReadsAsMappingKey(MappingKey(protocol, port), protocol, port)
  {
    var args := MappingKey(protocol, port);
    assert ReadsAsMappingKey(args, protocol, port) by {
      Decimal.ParseRender(port);
    }
    MappingKeyWellFormed(protocol, port);
    ActionNamesPlain();
    RequestReadsBack(b, DeletePortMapping, args);
  }

  /** `IsMapped` sends `GetSpecificPortMappingEntry` with the same three
      arguments as `Close`. */
  lemma IsMappedSends(b: Binding, protocol: Protocol, port: Port)
    requires '"' !in b.serviceType
    ensures var req := CommandRequest(b, GetSpecificPortMappingEntry, MappingKey(protocol, port));
      && req.url == b.controlUrl
      && ParseSoapAction(req.soapAction) == Some((b.serviceType, "GetSpecificPortMappingEntry"))
      && ParseSoapRequest(req.body) == Some((b.serviceType, "GetSpecificPortMappingEntry", MappingKey(protocol, port)))
      && ReadsAsMappingKey(MappingKey(protocol, port), protocol, port)
  {
    var args := MappingKey(protocol, port);
    assert ReadsAsMappingKey(args, protocol, port) by {
      Decimal.ParseRender(port);
    }
    MappingKeyWellFormed(protocol, port);
    ActionNamesPlain();
    RequestReadsBack(b, GetSpecificPortMappingEntry, args);
  }

  /** The arguments of `Open`, as the gateway reads them: eight fields in a
      fixed order, the external and internal port both `port`, the internal
      client the local address, the mapping enabled and the lease unlimited. */
  ghost predicate ReadsAsOpen(args: Args, b: Binding, protocol: Protocol, port: Port, description: string) {
    && Keys(args) == [ "NewRemoteHost", "NewProtocol", "NewExternalPort", "NewInternalClient",
                       "NewInternalPort", "NewEnabled", "NewPortMappingDescription", "NewLeaseDuration" ]
    && args[0].1 == ""
    && ParseProtocol(args[1].1) == Some(protocol)
    && Decimal.Parse(args[2].1) == Some(port)
    && args[3].1 == b.localIP
    && Decimal.Parse(args[4].1) == Some(port)
    && Decimal.Parse(args[5].1) == Some(1)
    && args[6].1 == description
    && Decimal.Parse(args[7].1) == Some(0)
  }

  lemma OpenArgsRead(b: Binding, protocol: Protocol, port: Port, description: string)
    ensures ReadsAsOpen(OpenArgs(b, protocol, port, description), b, protocol, port, description)
  {
    Decimal.ParseRender(port);
    Decimal.ParseRender(1);
    Decimal.ParseRender(0);
  }

  lemma OpenArgsWellFormed(b: Binding, protocol: Protocol, port: Port, description: string)
    requires '<' !in b.localIP && '<' !in description
    ensures WellFormedArgs(OpenArgs(b, protocol, port, description))
  {
    forall n: nat ensures '<' !in Decimal.Render(n) {
      var s := Decimal.Render(n);
      assert forall i :: 0 <= i < |s| ==> s[i] != '<';
    }
  }

  /** `Open` sends `AddPortMapping` with the eight arguments `ReadsAsOpen`
      describes, whenever neither the local address nor the description holds
      a `<`. */
  lemma OpenSends(b: Binding, protocol: Protocol, port: Port, description: string)
    requires '"' !in b.serviceType && '<' !in b.localIP && '<' !in description
    ensures var req := CommandRequest(b, AddPortMapping, OpenArgs(b, protocol, port, description));
      && req.url == b.controlUrl
      && ParseSoapAction(req.soapAction) == Some((b.serviceType, "AddPortMapping"))
      && ParseSoapRequest(req.body) == Some((b.serviceType, "AddPortMapping", OpenArgs(b, protocol, port, description)))
      && ReadsAsOpen(OpenArgs(b, protocol, port, description), b, protocol, port, description)
  {
    var args := OpenArgs(b, protocol, port, description);
    OpenArgsRead(b, protocol, port, description);
    OpenArgsWellFormed(b, protocol, port, description);
    ActionNamesPlain();
    RequestReadsBack(b, AddPortMapping, args);
  }

  /** `ExternalIP` sends `GetExternalIPAddress` with no arguments. */
  lemma ExternalIPSends(b: Binding)
    requires '"' !in b.serviceType
    ensures var req := CommandRequest(b, GetExternalIPAddress, []);
      && req.url == b.controlUrl
      && ParseSoapAction(req.soapAction) == Some((b.serviceType, "GetExternalIPAddress"))
      && ParseSoapRequest(req.body) == Some((b.serviceType, "GetExternalIPAddress", []))
  {
    ActionNamesPlain();
    RequestReadsBack(b, GetExternalIPAddress, []);
  }
}

=== FILE: last_wins.dfy ===
/** The overwrite loop the source uses twice: walk a sequence in order and
    store every value a selector yields, so that the last one survives. */
module LastWins {
  import opened Results

  /** No element of `xs` is selected. */
  ghost predicate NoMatch<T, U>(xs: seq<T>, f: T -> Option<U>) {
    forall i :: 0 <= i < |xs| ==> f(xs[i]).None?
  }

  /** `i` is the last position of `xs` that `f` selects. */
  ghost predicate LastSelected<T, U>(xs: seq<T>, f: T -> Option<U>, i: int) {
    && 0 <= i < |xs|
    && f(xs[i]).Some?
    && forall j :: i < j < |xs| ==> f(xs[j]).None?
  }

  /** The variable after the loop `foreach x in xs: if f(x) is Some(u) then v := u`,
      started at `None`: `Last(xs, f)` is the state once the prefix `xs` is done. */
  function Last<T, U>(xs: seq<T>, f: T -> Option<U>): (r: Option<U>)
    ensures r.None? <==> NoMatch(xs, f)
    ensures forall i :: LastSelected(xs, f, i) ==> r == f(xs[i])
    decreases |xs|
  {
    if |xs| == 0 then None
    else match f(xs[|xs| - 1])
      case Some(u) =>
        assert forall i :: LastSelected(xs, f, i) ==> i == |xs| - 1;
        Some(u)
      case None =>
        var init := xs[..|xs| - 1];
        assert forall i :: 0 <= i < |init| ==> init[i] == xs[i];
        assert forall i :: LastSelected(xs, f, i) ==> LastSelected(init, f, i);
        Last(init, f)
  }

  /** When something is selected, the result is what the last selected
      position yields. */
  lemma {:induction false} LastHasWitness<T, U>(xs: seq<T>, f: T -> Option<U>)
    requires !NoMatch(xs, f)
    ensures exists i :: LastSelected(xs, f, i) && Last(xs, f) == f(xs[i])
    decreases |xs|
  {
    var n := |xs| - 1;
    if f(xs[n]).Some? {
      assert LastSelected(xs, f, n);
    } else {
      var init := xs[..n];
      assert forall i :: 0 <= i < |init| ==> init[i] == xs[i];
      LastHasWitness(init, f);
      var i :| LastSelected(init, f, i) && Last(init, f) == f(init[i]);
      assert LastSelected(xs, f, i);
    }
  }
}

=== FILE: results.dfy ===
/** The outcomes of the gateway client: the ways an operation can fail, and the
    Option/Result carriers the rest of the model returns (both usable with `:-`). */
module Results {

  /** The failures the client reports. The source raises each as an exception. */
  datatype GatewayError =
    | UnsupportedGateway   // no usable location header, or no WAN connection service
    | Fault(code: string)  // the SOAP reply carried an errorCode element
    | NoResult             // the SOAP call gave no reply map and the caller dereferenced it
    | HttpFailure(status: int)  // the transport refused a reply whose status is outside 200-299

  datatype Option<+T> = None | Some(value: T)

  datatype Result<+T> = Ok(value: T) | Err(error: GatewayError) {

    predicate IsFailure() {
      Err?
    }

    function PropagateFailure<U>(): Result<U>
      requires Err?
    {
      Err(error)
    }

    function Extract(): T
      requires Ok?
    {
      value
    }
  }
}

=== FILE: scenarios.dfy ===
/** Worked examples: a discovery reply, a device description and SOAP replies
    of the shape a typical Internet Gateway Device sends, taken through the
    model. The general lemma `SecondServiceWins` pins down the overwrite
    behaviour of service resolution for any two qualifying services. */
module Scenarios {
  import opened Results
  import opened Strings
  import opened Xml
  import opened LastWins
  import opened Ssdp
  import opened ServiceResolver
  import opened Soap
  import opened Gateway

  // Longer texts are built by concatenating short literals at the points the
  // proofs cut them (the header name, the `:`, the version digit), so the
  // verifier unfolds small pieces instead of one long literal.
  const Host := "http://192.168.1.1:5000"
  const Url := Host + "/desc.xml"
  const StatusLine := "HTTP/1.1 200 OK"
  const LocationHeader := "LOCATION" + ": " + Url
  const ServicePrefix := "urn:schemas-upnp-org:service"
  const IpType := ServicePrefix + ":WANIPConnection:" + "1"

  // ---- Discovery reply ----

  lemma ReplyLines()
    ensures Split(StatusLine + "\r\n" + LocationHeader + "\r\n", '\n') ==
      [StatusLine + "\r", LocationHeader + "\r", ""]
  {
    assert '\n' !in StatusLine + "\r";
    assert '\n' !in LocationHeader + "\r" by {
      assert forall i :: 0 <= i < |LocationHeader + "\r"| ==> (LocationHeader + "\r")[i] != '\n';
    }
    assert StatusLine + "\r\n" + LocationHeader + "\r\n" ==
      (StatusLine + "\r") + ['\n'] + ((LocationHeader + "\r") + ['\n'] + "");
    SplitFirst(StatusLine + "\r", '\n', (LocationHeader + "\r") + ['\n'] + "");
    SplitFirst(LocationHeader + "\r", '\n', "");
    SplitLast("", '\n');
  }

  lemma StatusLineSkipped()
    ensures Trim(StatusLine + "\r") == StatusLine && IsStartLine(StatusLine)
  {
    var s := StatusLine + "\r";
    assert LeadingWhite(s) == 0;
    assert s[..|s| - 1] == StatusLine;
    assert TrailingWhite(StatusLine) == 0;
    assert TrailingWhite(s) == 1;
    assert StatusLine[..7] == "HTTP/1.";
  }

  lemma LocationHeaderTrimmed()
    ensures Trim(LocationHeader + "\r") == LocationHeader
  {
    var s := LocationHeader + "\r";
    assert LeadingWhite(s) == 0;
    assert s[..|s| - 1] == LocationHeader;
    assert TrailingWhite(LocationHeader) == 0;
    assert TrailingWhite(s) == 1;
  }

  lemma LocationHeaderName()
    ensures ':' in LocationHeader && Lower(HeaderName(LocationHeader)) == "location"
  {
    IndexOfAt(LocationHeader, ':', 0, 8);
    assert HeaderName(LocationHeader) == "LOCATION";
    LowerEq("LOCATION", "location");
  }

  lemma LocationHeaderValue()
    ensures ':' in LocationHeader && HeaderValue(LocationHeader) == Url
  {
    IndexOfAt(LocationHeader, ':', 0, 8);
    assert |HeaderName(LocationHeader)| == 8;
    assert LocationHeader[9..] == " " + Url;
    SpacedUrlTrimmed();
  }

  lemma SpacedUrlTrimmed()
    ensures Trim(" " + Url) == Url
  {
    var s := " " + Url;
    assert s[1..] == Url;
    assert LeadingWhite(Url) == 0;
    assert LeadingWhite(s) == 1;
    assert TrailingWhite(Url) == 0;
    assert Trim(s) == s[1..|s|];
  }

  lemma UrlPath()
    ensures HasPath(Url) && Origin(Url) == Host
  {
    IndexOfAt(Url, '/', SchemeLength, |Host|);
  }

  lemma StatusLineIsNotLocation()
    ensures !IsLocationLine(StatusLine + "\r")
  {
    StatusLineSkipped();
  }

  lemma HeaderIsNotStartLine()
    ensures !IsStartLine(LocationHeader)
  {
    assert LocationHeader[0] == 'L';
  }

  lemma HeaderIsLocation()
    ensures IsLocationLine(LocationHeader + "\r")
    ensures HeaderValue(Trim(LocationHeader + "\r")) == Url
  {
    LocationHeaderTrimmed();
    HeaderIsNotStartLine();
    assert |LocationHeader| > 0;
    LocationHeaderName();
    LocationHeaderValue();
  }

  /** In the reply's lines, the header line is the first location line. */
  lemma ReplyFirstLocation(lines: seq<string>)
    requires lines == [StatusLine + "\r", LocationHeader + "\r", ""]
    ensures FirstLocationLine(lines, 1) && HeaderValue(Trim(lines[1])) == Url
  {
    assert lines[0] == StatusLine + "\r" && lines[1] == LocationHeader + "\r";
    StatusLineIsNotLocation();
    HeaderIsLocation();
  }

  /** A status line followed by a `LOCATION` header yields that header's URL. */
  lemma LocationScenario()
    ensures GetLocation(StatusLine + "\r\n" + LocationHeader + "\r\n") == Ok(Url)
  {
    ReplyLines();
    var lines := Split(StatusLine + "\r\n" + LocationHeader + "\r\n", '\n');
    ReplyFirstLocation(lines);
    UrlPath();
    FindLocationFirst(lines, 1);
  }

  // ---- Device description ----

  function Service(serviceType: string, controlUrl: string): Node {
    Element("service", [Element("serviceType", [TextNode(serviceType)]), Element("controlURL", [TextNode(controlUrl)])])
  }

  lemma TypeNameTrimmed() ensures Trim("serviceType") == "serviceType" { TrimTrimmed("serviceType"); }
  lemma TypeNameLowered() ensures Lower("serviceType") == "servicetype" { LowerEq("serviceType", "servicetype"); }
  lemma UrlNameTrimmed() ensures Trim("controlURL") == "controlURL" { TrimTrimmed("controlURL"); }
  lemma UrlNameLowered() ensures Lower("controlURL") == "controlurl" { LowerEq("controlURL", "controlurl"); }

  lemma TypeChild(t: string)
    requires IsTrimmed(t)
    ensures ChildField(Element("serviceType", [TextNode(t)])) == Some(("servicetype", t))
  {
    TypeNameTrimmed();
    TypeNameLowered();
    TrimTrimmed(t);
  }

  lemma UrlChild(u: string)
    requires IsTrimmed(u)
    ensures ChildField(Element("controlURL", [TextNode(u)])) == Some(("controlurl", u))
  {
    UrlNameTrimmed();
    UrlNameLowered();
    TrimTrimmed(u);
  }

  lemma ScanTwo(c0: Node, c1: Node, t: string, u: string)
    requires ChildField(c0) == Some(("servicetype", t)) && ChildField(c1) == Some(("controlurl", u))
    ensures ScanChildren([c0, c1]) == ServiceFields(Some(t), Some(u))
  {
    assert [c0, c1][..1] == [c0];
    assert [c0][..0] == [];
  }

  /** A `service` element with a WAN connection type and a control URL
      offers exactly that pair. */
  lemma ServiceOffers(serviceType: string, controlUrl: string)
    requires IsTrimmed(serviceType) && IsTrimmed(controlUrl) && IsWanConnection(serviceType)
    ensures Candidate(Service(serviceType, controlUrl)) == Some((serviceType, controlUrl))
  {
    TypeChild(serviceType);
    UrlChild(controlUrl);
    ScanTwo(Element("serviceType", [TextNode(serviceType)]), Element("controlURL", [TextNode(controlUrl)]),
      serviceType, controlUrl);
  }

  lemma ServiceElements(t: string, u: string)
    ensures Elements([Service(t, u)]) ==
      [Service(t, u), Element("serviceType", [TextNode(t)]), Element("controlURL", [TextNode(u)])]
  {
    var c0 := Element("serviceType", [TextNode(t)]);
    var c1 := Element("controlURL", [TextNode(u)]);
    assert Elements([TextNode(t)]) == [] by { assert [TextNode(t)][1..] == []; }
    assert Elements([TextNode(u)]) == [] by { assert [TextNode(u)][1..] == []; }
    assert Elements([c1]) == [c1] by { assert [c1][1..] == []; }
    assert [c0, c1][1..] == [c1];
    assert Elements([c0, c1]) == [c0, c1];
    assert [Service(t, u)][1..] == [];
  }

  lemma TwoServiceElements(s1: Node, s2: Node, e1: seq<Node>, e2: seq<Node>)
    requires Elements([s1]) == e1 && Elements([s2]) == e2
    ensures Elements([Element("serviceList", [s1, s2])]) == [Element("serviceList", [s1, s2])] + e1 + e2
  {
    ElementsAppend([s1], [s2]);
    assert [s1] + [s2] == [s1, s2];
    assert [Element("serviceList", [s1, s2])][1..] == [];
  }

  lemma SecondListElements(type1: string, url1: string, type2: string, url2: string)
    ensures var els := Elements([Element("serviceList", [Service(type1, url1), Service(type2, url2)])]);
      && |els| == 7 && els[4] == Service(type2, url2)
      && els[5] == Element("serviceType", [TextNode(type2)]) && els[6] == Element("controlURL", [TextNode(url2)])
  {
    var s2 := Service(type2, url2);
    var c0, c1 := Element("serviceType", [TextNode(type2)]), Element("controlURL", [TextNode(url2)]);
    ServiceElements(type1, url1);
    ServiceElements(type2, url2);
    TwoServiceElements(Service(type1, url1), s2, Elements([Service(type1, url1)]), [s2, c0, c1]);
  }

  /** The service a description yields is the one at the last qualifying
      element. */
  lemma ChosenAt(doc: seq<Node>, i: int, chosen: (string, string))
    requires LastSelected(Elements(doc), Candidate, i) && Candidate(Elements(doc)[i]) == Some(chosen)
    ensures ChooseService(doc) == Some(chosen)
  {
  }

  lemma SecondSelected(els: seq<Node>, chosen: (string, string))
    requires |els| == 7 && Candidate(els[4]) == Some(chosen)
    requires els[5].Element? && els[5].name != "service" && els[6].Element? && els[6].name != "service"
    ensures LastSelected(els, Candidate, 4)
  {
  }

  /** Of two qualifying services, the one later in the document wins. */
  lemma SecondServiceWins(type1: string, url1: string, type2: string, url2: string)
    requires IsTrimmed(type1) && IsTrimmed(url1) && IsWanConnection(type1)
    requires IsTrimmed(type2) && IsTrimmed(url2) && IsWanConnection(type2)
    ensures ChooseService([Element("serviceList", [Service(type1, url1), Service(type2, url2)])]) == Some((type2, url2))
  {
    var doc := [Element("serviceList", [Service(type1, url1), Service(type2, url2)])];
    SecondListElements(type1, url1, type2, url2);
    ServiceOffers(type2, url2);
    SecondSelected(Elements(doc), (type2, url2));
    ChosenAt(doc, 4, (type2, url2));
  }

  lemma IpTypeTrimmed()
    ensures IsTrimmed(IpType)
  {
    assert IpType[0] == ServicePrefix[0] == 'u';
    assert IpType[|IpType| - 1] == '1';
  }

  lemma IpTypeQualifies()
    ensures IsTrimmed(IpType) && IsWanConnection(IpType)
  {
    IpTypeTrimmed();
    assert IpType[|ServicePrefix|..|ServicePrefix| + 17] == ":WANIPConnection:";
    assert MatchesIgnoreCaseAt(IpType, ":wanipconnection:", |ServicePrefix|);
  }

  lemma ControlUrlTrimmed()
    ensures IsTrimmed("/ctl/IPConn")
  {
  }

  /** A WANIPConnection service with control URL `/ctl/IPConn`, described at
      `http://192.168.1.1:5000/desc.xml`, resolves to
      `http://192.168.1.1:5000/ctl/IPConn`. */
  lemma ResolveScenario()
    ensures HasPath(Url)
      && GetInfo(Url, [Element("serviceList", [Service(IpType, "/ctl/IPConn")])]) == Ok((IpType, Host + "/ctl/IPConn"))
  {
    UrlPath();
    OnlyServiceChosen();
    ControlUrlScenario();
  }

  lemma OnlyServiceChosen()
    ensures var els := Elements([Element("serviceList", [Service(IpType, "/ctl/IPConn")])]);
      |els| == 4 && LastSelected(els, Candidate, 1) && Candidate(els[1]) == Some((IpType, "/ctl/IPConn"))
  {
    IpTypeQualifies();
    ControlUrlTrimmed();
    var svc := Service(IpType, "/ctl/IPConn");
    var list := Element("serviceList", [svc]);
    ServiceElements(IpType, "/ctl/IPConn");
    assert [list][1..] == [];
    var els := Elements([list]);
    assert els == [list] + Elements([svc]);
    ServiceOffers(IpType, "/ctl/IPConn");
  }

  /** The control URL resolves to the same absolute URL with or without its
      leading `/`. */
  lemma ControlUrlScenario()
    ensures HasPath(Url) && ResolveControlUrl(Url, "/ctl/IPConn") == Host + "/ctl/IPConn"
    ensures HasPath(Url) && ResolveControlUrl(Url, "ctl/IPConn") == Host + "/ctl/IPConn"
  {
    UrlPath();
    var r1 := ResolveControlUrl(Url, "/ctl/IPConn");
    assert r1[..|Host|] == Host;
    assert r1 == r1[..|Host|] + [r1[|Host|]] + r1[|Host| + 1..];
    var r2 := ResolveControlUrl(Url, "ctl/IPConn");
    assert r2[..|Host|] == Host;
    assert r2 == r2[..|Host|] + [r2[|Host|]] + r2[|Host| + 1..];
  }

  // Split at index 7, where the path is taken to start.
  const HttpsUrl := "https:/" + "/gw/desc.xml"

  /** The path of a location is taken to start at the first `/` from index 7,
      the length of `http://`. For an `https://` location that is the second
      `/` of the scheme, so the host is lost when a control URL is resolved. */
  lemma HttpsLocationScenario()
    ensures HasPath(HttpsUrl) && Origin(HttpsUrl) == "https:/"
    ensures ResolveControlUrl(HttpsUrl, "/ctl") == "https:/" + "/ctl"
  {
    assert HttpsUrl[7] == '/';
    assert HttpsUrl[..7] == "https:/";
    var r := ResolveControlUrl(HttpsUrl, "/ctl");
    assert r[..7] == "https:/";
    assert r == r[..7] + [r[7]] + r[8..];
  }

  // ---- SOAP replies ----

  function Envelope(payload: Node): seq<Node> {
    [Element("Envelope", [Element("Body", [payload])])]
  }

  /** A reply carrying `<errorCode>714</errorCode>` is a fault with code 714. */
  lemma FaultScenario()
    ensures GetResponse(Response(200, Envelope(Element("Fault", [Element("errorCode", [TextNode("714")])])))) ==
      Err(Fault("714"))
  {
  }

  function AddressReply(): seq<Node> {
    Envelope(Element("GetExternalIPAddressResponse", [Element("NewExternalIPAddress", [TextNode("203.0.113.5")])]))
  }

  lemma AddressReplyElements()
    ensures var els := Elements(AddressReply());
      |els| == 4 && els[3] == Element("NewExternalIPAddress", [TextNode("203.0.113.5")])
      && forall i :: 0 <= i < 3 ==> Leaf(els[i]).None?
  {
    var leaf := Element("NewExternalIPAddress", [TextNode("203.0.113.5")]);
    var resp := Element("GetExternalIPAddressResponse", [leaf]);
    var body := Element("Body", [resp]);
    var env := Element("Envelope", [body]);
    assert Elements([TextNode("203.0.113.5")]) == [] by { assert [TextNode("203.0.113.5")][1..] == []; }
    assert Elements([leaf]) == [leaf] by { assert [leaf][1..] == []; }
    assert Elements([resp]) == [resp, leaf] by { assert [resp][1..] == []; }
    assert Elements([body]) == [body, resp, leaf] by { assert [body][1..] == []; }
    assert Elements([env]) == [env, body, resp, leaf] by { assert [env][1..] == []; }
  }

  lemma AddressReplyLeaves()
    ensures var els := Elements(AddressReply());
      && Last(els, LeafNamed(ErrorCodeKey)).None?
      && Last(els, LeafNamed("NewExternalIPAddress")) == Some("203.0.113.5")
  {
    AddressReplyElements();
    var els := Elements(AddressReply());
    assert NoMatch(els, LeafNamed(ErrorCodeKey));
    assert LastSelected(els, LeafNamed("NewExternalIPAddress"), 3);
  }

  /** `ExternalIP` reads the `NewExternalIPAddress` text of the reply. */
  lemma ExternalIPScenario(b: Binding)
    ensures ExternalIP(b, _ => Response(200, AddressReply())) == Ok(Some("203.0.113.5"))
  {
    AddressReplyLeaves();
  }

  /** A fault sent the usual UPnP way, with status 500, never reaches the
      `errorCode` check: the transport refuses the reply, so `Open` fails
      with the status rather than the fault code. */
  lemma ServerErrorScenario(b: Binding, protocol: Protocol, port: Port, description: string)
    ensures Open(b, _ => Response(500, Envelope(Element("Fault", [Element("errorCode", [TextNode("718")])]))),
      protocol, port, description) == Err(HttpFailure(500))
  {
  }
}

=== FILE: service_resolver.dfy ===
/** Resolution of the WAN connection service from the device description
    (`Gateway.GetInfo`): which `service` element wins, and how its control
    URL is made absolute. */
module ServiceResolver {
  import opened Results
  import opened Strings
  import opened Xml
  import opened LastWins
  import opened Ssdp

  /** The two fields the scan of one `service` element keeps. */
  datatype ServiceFields = ServiceFields(serviceType: Option<string>, controlUrl: Option<string>)

  /** A child of a `service` element as the scan reads it: its local name,
      trimmed and lower-cased, and its leading text, trimmed. Children that are
      not elements or whose first node is not text give nothing. */
  function ChildField(n: Node): Option<(string, string)> {
    match FirstText(n)
    case Some(text) => Some((Lower(Trim(n.name)), Trim(text)))
    case None => None
  }

  /** The value a child contributes to the field `key`, if any. */
  function FieldValue(key: string, n: Node): Option<string> {
    match ChildField(n)
    case Some((k, v)) => if k == key then Some(v) else None
    case None => None
  }

  function FieldNamed(key: string): Node -> Option<string> {
    n => FieldValue(key, n)
  }

  /** One turn of the loop over a service's child nodes. */
  function ChildStep(acc: ServiceFields, n: Node): ServiceFields {
    match ChildField(n)
    case Some((k, v)) =>
      if k == "servicetype" then acc.(serviceType := Some(v))
      else if k == "controlurl" then acc.(controlUrl := Some(v))
      else acc
    case None => acc
  }

  /** The fields after the loop over the child nodes `cs` has run. */
  function ScanChildren(cs: seq<Node>): ServiceFields
    decreases |cs|
  {
    if |cs| == 0 then ServiceFields(None, None)
    else ChildStep(ScanChildren(cs[..|cs| - 1]), cs[|cs| - 1])
  }

  /** Within one service, each field holds the value of the LAST child that
      names it: a later `serviceType` or `controlURL` overwrites an earlier one,
      and a field no child names stays absent. */
  lemma {:induction false} ScanChildrenLastWins(cs: seq<Node>)
    ensures ScanChildren(cs).serviceType == Last(cs, FieldNamed("servicetype"))
    ensures ScanChildren(cs).controlUrl == Last(cs, FieldNamed("controlurl"))
    decreases |cs|
  {
    if |cs| > 0 {
      ScanChildrenLastWins(cs[..|cs| - 1]);
    }
  }

  /** The service type names a WAN IP or WAN PPP connection, ignoring case. */
  predicate IsWanConnection(serviceType: string) {
    || ContainsIgnoreCase(serviceType, ":wanipconnection:")
    || ContainsIgnoreCase(serviceType, ":wanpppconnection:")
  }

  /** What a node contributes to the outer loop: for an element whose local
      name is exactly `service` and whose scan found both fields with a WAN
      connection type, the (service type, control URL) pair. */
  function Candidate(n: Node): (r: Option<(string, string)>)
    ensures r.Some? ==> n.Element? && n.name == "service" && IsWanConnection(r.value.0)
  {
    if n.Element? && n.name == "service" then
      var f := ScanChildren(n.children);
      if f.serviceType.Some? && f.controlUrl.Some? && IsWanConnection(f.serviceType.value)
      then Some((f.serviceType.value, f.controlUrl.value))
      else None
    else None
  }

  /** A node qualifies exactly when it is a `service` element with both fields
      present and a WAN connection type; the pair it offers is made of the
      last values its children give each field. */
  lemma CandidateSpec(n: Node)
    ensures Candidate(n).Some? <==>
      && n.Element? && n.name == "service"
      && Last(n.children, FieldNamed("servicetype")).Some?
      && Last(n.children, FieldNamed("controlurl")).Some?
      && IsWanConnection(Last(n.children, FieldNamed("servicetype")).value)
    ensures Candidate(n).Some? ==>
      Candidate(n).value ==
        (Last(n.children, FieldNamed("servicetype")).value, Last(n.children, FieldNamed("controlurl")).value)
  {
    if n.Element? {
      ScanChildrenLastWins(n.children);
    }
  }

  /** The loop over every element of the description in document order:
      the last qualifying service wins, and nothing is chosen when no element
      qualifies. */
  function ChooseService(doc: seq<Node>): (r: Option<(string, string)>)
    ensures r.None? <==> NoMatch(Elements(doc), Candidate)
    ensures r.Some? ==> IsWanConnection(r.value.0)
    ensures forall i :: LastSelected(Elements(doc), Candidate, i) ==> r == Candidate(Elements(doc)[i])
  {
    var r := Last(Elements(doc), Candidate);
    if r.Some? then LastHasWitness(Elements(doc), Candidate); r else r
  }

  /** The control URL made absolute: a `/` is put in front when missing, and
      the result is spliced after the origin of the location. */
  function ResolveControlUrl(location: string, controlUrl: string): (r: string)
    requires HasPath(location)
    ensures HasPath(r) && Origin(r) == Origin(location)
    ensures r[|Origin(location)|] == '/'
    ensures r[|Origin(location)| + 1..] ==
      if StartsWith(controlUrl, "/") then controlUrl[1..] else controlUrl
  {
    var path := if StartsWith(controlUrl, "/") then controlUrl else "/" + controlUrl;
    var o := Origin(location);
    var r := o + path;
    assert r[..|o|] == o;
    assert '/' !in r[SchemeLength..|o|] by {
      assert r[SchemeLength..|o|] == location[SchemeLength..|o|];
    }
    assert PathStart(r) == Some(|o|) by {
      assert forall j :: SchemeLength <= j < |o| ==> r[j] == r[SchemeLength..|o|][j - SchemeLength];
      IndexOfAt(r, '/', SchemeLength, |o|);
    }
    assert r[|o| + 1..] == path[1..];
    assert ("/" + controlUrl)[1..] == controlUrl;
    r
  }

  /** `GetInfo(location)`, given the description `doc` fetched from `location`:
      the type and absolute control URL of the last qualifying service, or
      `UnsupportedGateway` when no service qualifies. */
  function GetInfo(location: string, doc: seq<Node>): (r: Result<(string, string)>)
    requires HasPath(location)
    ensures r.Err? <==> NoMatch(Elements(doc), Candidate)
    ensures r.Err? ==> r.error == UnsupportedGateway
    ensures forall i :: LastSelected(Elements(doc), Candidate, i) ==>
      var chosen := Candidate(Elements(doc)[i]).value;
      r == Ok((chosen.0, ResolveControlUrl(location, chosen.1)))
  {
    match ChooseService(doc)
    case None => Err(UnsupportedGateway)
    case Some((serviceType, controlUrl)) => Ok((serviceType, ResolveControlUrl(location, controlUrl)))
  }
}

=== FILE: soap.dfy ===
/** SOAP over HTTP as the client speaks it: the request envelope
    (`GetSoapRequest`, `BuildArgString`), the `SOAPAction` header
    (`SendRequest`), and the flattening of a reply into fields with fault
    detection (`GetResponse`). The readers `ParseArgs`, `ParseSoapRequest` and
    `ParseSoapAction` are how a gateway reads the text back; they are the
    partners the request builders are checked against. */
module Soap {
  import opened Results
  import opened Strings
  import opened Xml
  import opened LastWins

  /** Action arguments, as (element name, rendered value) pairs in order. */
  type Args = seq<(string, string)>

  const XmlDeclaration := "<?xml version=\"1.0\"?>\n"
  const EnvelopeOpen :=
    "<SOAP-ENV:Envelope xmlns:SOAP-ENV=\"http://schemas.xmlsoap.org/soap/envelope/\" SOAP-ENV:encodingStyle=\"http://schemas.xmlsoap.org/soap/encoding/\">"
  const BodyOpen := "<SOAP-ENV:Body>"
  const BodyClose := "</SOAP-ENV:Body>"
  const EnvelopeClose := "</SOAP-ENV:Envelope>"

  /** Everything before the action name. */
  const RequestHead := XmlDeclaration + EnvelopeOpen + BodyOpen + "<m:"
  /** What separates the action name from the service type. */
  const NamespaceAttr := " xmlns:m=\""

  /** One argument as the element `<key>value</key>`. */
  function ArgElement(key: string, value: string): string {
    "<" + key + ">" + value + "</" + key + ">"
  }

  /** `BuildArgString`: the argument elements, in order, with nothing between.
      Read back, the text gives the same arguments in the same order whenever
      they survive the unescaped text. */
  function ArgString(args: Args): (s: string)
    ensures WellFormedArgs(args) ==> ParseArgs(s) == Some(args)
    decreases |args|
  {
    if |args| == 0 then []
    else
      var rest := ArgString(args[1..]);
      assert WellFormedArgs(args) ==> ParseArgs(ArgElement(args[0].0, args[0].1) + rest) == Some(args) by {
        if WellFormedArgs(args) {
          assert WellFormedArgs(args[1..]) by {
            forall p | 0 <= p < |args[1..]| ensures '>' !in args[1..][p].0 && '<' !in args[1..][p].1 {
              assert args[1..][p] == args[p + 1];
            }
          }
          ParseArgsStep(args[0].0, args[0].1, rest);
          assert [(args[0].0, args[0].1)] + args[1..] == args;
        }
      }
      ArgElement(args[0].0, args[0].1) + rest
  }

  /** Everything after the arguments. */
  function ActionClose(action: string): string {
    "</m:" + action + ">" + BodyClose + EnvelopeClose
  }

  /** `GetSoapRequest`: the SOAP 1.1 envelope for `action` of `serviceType`.
      It reads back as the service type, action and arguments it was built
      from, arguments in their order, provided the action name has no space,
      the service type no `"`, and the arguments are well formed. */
  function SoapRequest(serviceType: string, action: string, args: Args): (s: string)
    ensures ' ' !in action && '"' !in serviceType && WellFormedArgs(args) ==>
      ParseSoapRequest(s) == Some((serviceType, action, args))
  {
    var body := "\">" + ArgString(args) + ActionClose(action);
    var after := NamespaceAttr + serviceType + body;
    var rest := action + after;
    var s := RequestHead + rest;
    assert ' ' !in action && '"' !in serviceType && WellFormedArgs(args) ==>
      ParseSoapRequest(s) == Some((serviceType, action, args)) by {
      if ' ' !in action && '"' !in serviceType && WellFormedArgs(args) {
        assert s[..|RequestHead|] == RequestHead;
        assert s[|RequestHead|..] == rest;
        assert forall p :: 0 <= p < |action| ==> rest[p] == action[p];
        assert rest[|action|] == ' ';
        IndexOfAt(rest, ' ', 0, |action|);
        assert rest[..|action|] == action;
        assert rest[|action|..] == after;
        ParseNamespaceOf(action, serviceType, body);
        ParseBodyOf(serviceType, action, args);
      }
    }
    s
  }

  /** The `SOAPAction` header value `"serviceType#action"`. Split at its last
      `#`, it names the service type and the action again, whenever the
      action name has no `#`. */
  function SoapAction(serviceType: string, action: string): (h: string)
    ensures '#' !in action ==> ParseSoapAction(h) == Some((serviceType, action))
  {
    var inner := serviceType + "#" + action;
    var h := "\"" + inner + "\"";
    assert '#' !in action ==> ParseSoapAction(h) == Some((serviceType, action)) by {
      if '#' !in action {
        assert h[1..|h| - 1] == inner;
        assert forall p :: |serviceType| < p < |inner| ==> inner[p] == action[p - |serviceType| - 1];
        LastIndexOfAt(inner, '#', |serviceType|);
        assert inner[..|serviceType|] == serviceType;
        assert inner[|serviceType| + 1..] == action;
      }
    }
    h
  }

  // ---- Reading requests back ----

  /** Arguments that survive the unescaped text: no `>` in a name and no `<`
      in a value. */
  ghost predicate WellFormedArgs(args: Args) {
    forall i :: 0 <= i < |args| ==> '>' !in args[i].0 && '<' !in args[i].1
  }

  /** Reads a run of `<key>value</key>` elements. */
  function ParseArgs(s: string): Option<Args>
    decreases |s|
  {
    if |s| == 0 then Some([])
    else if s[0] != '<' then None
    else match IndexOfFrom(s, '>', 1)
      case None => None
      case Some(i) =>
        var key := s[1..i];
        match IndexOfFrom(s, '<', i + 1)
        case None => None
        case Some(j) =>
          var close := "</" + key + ">";
          if !StartsWith(s[j..], close) then None
          else match ParseArgs(s[j + |close|..])
            case None => None
            case Some(rest) => Some([(key, s[i + 1..j])] + rest)
  }

  /** Reading one element off the front of `s`. */
  lemma ParseArgsStep(k: string, v: string, rest: string)
    requires '>' !in k && '<' !in v
    ensures ParseArgs(ArgElement(k, v) + rest) ==
      match ParseArgs(rest)
      case None => None
      case Some(more) => Some([(k, v)] + more)
  {
    var close := "</" + k + ">";
    var s := ArgElement(k, v) + rest;
    var i := 1 + |k|;
    var j := i + 1 + |v|;
    assert s == "<" + k + ">" + v + (close + rest);
    assert s[1..i] == k;
    assert s[i] == '>';
    assert forall p :: 1 <= p < i ==> s[p] == k[p - 1];
    IndexOfAt(s, '>', 1, i);
    assert s[i + 1..j] == v;
    assert s[j] == '<';
    assert forall p :: i + 1 <= p < j ==> s[p] == v[p - i - 1];
    IndexOfAt(s, '<', i + 1, j);
    assert s[j..] == close + rest;
    assert StartsWith(s[j..], close);
    assert s[j + |close|..] == rest;
  }

  /** Reads a request envelope back into (service type, action, arguments). */
  function ParseSoapRequest(s: string): Option<(string, string, Args)> {
    if !StartsWith(s, RequestHead) then None
    else match IndexOfFrom(s[|RequestHead|..], ' ', 0)
      case None => None
      case Some(i) =>
        var rest := s[|RequestHead|..];
        ParseNamespace(rest[..i], rest[i..])
  }

  /** After the action name: the service type up to the closing quote. */
  function ParseNamespace(action: string, s: string): Option<(string, string, Args)> {
    if !StartsWith(s, NamespaceAttr) then None
    else match IndexOfFrom(s[|NamespaceAttr|..], '"', 0)
      case None => None
      case Some(j) =>
        var rest := s[|NamespaceAttr|..];
        ParseBody(action, rest[..j], rest[j..])
  }

  /** After the service type: the arguments, then the closing tags. */
  function ParseBody(action: string, serviceType: string, s: string): Option<(string, string, Args)> {
    var tail := ActionClose(action);
    if !StartsWith(s, "\">") || |s| < 2 + |tail| || s[|s| - |tail|..] != tail then None
    else match ParseArgs(s[2..|s| - |tail|])
      case None => None
      case Some(args) => Some((serviceType, action, args))
  }

  lemma ParseBodyOf(serviceType: string, action: string, args: Args)
    requires WellFormedArgs(args)
    ensures ParseBody(action, serviceType, "\">" + ArgString(args) + ActionClose(action)) ==
      Some((serviceType, action, args))
  {
    var a := ArgString(args);
    var t := ActionClose(action);
    var s := "\">" + a + t;
    assert s[..2] == "\">";
    assert s[|s| - |t|..] == t;
    assert s[2..|s| - |t|] == a;
  }

  lemma ParseNamespaceOf(action: string, serviceType: string, body: string)
    requires '"' !in serviceType && |body| > 0 && body[0] == '"'
    ensures ParseNamespace(action, NamespaceAttr + serviceType + body) == ParseBody(action, serviceType, body)
  {
    var rest := serviceType + body;
    var s := NamespaceAttr + rest;
    assert NamespaceAttr + serviceType + body == s;
    assert s[..|NamespaceAttr|] == NamespaceAttr;
    assert s[|NamespaceAttr|..] == rest;
    assert forall p :: 0 <= p < |serviceType| ==> rest[p] == serviceType[p];
    IndexOfAt(rest, '"', 0, |serviceType|);
    assert rest[..|serviceType|] == serviceType;
    assert rest[|serviceType|..] == body;
  }

  /** Reads a `SOAPAction` header back, splitting at its last `#`. */
  function ParseSoapAction(h: string): Option<(string, string)> {
    if |h| < 2 || h[0] != '"' || h[|h| - 1] != '"' then None
    else
      var inner := h[1..|h| - 1];
      match LastIndexOf(inner, '#')
      case None => None
      case Some(k) => Some((inner[..k], inner[k + 1..]))
  }

  // ---- Replies ----

  /** What the transport hands back for a request: the HTTP status and the
      reply body as a loaded document. */
  datatype Response = Response(status: int, document: seq<Node>)

  /** `HttpStatusCode.OK`; any other success status gives no result. */
  const StatusOk := 200

  /** The statuses the transport hands over; for any other it raises a
      `WebException` before the reply is read. */
  predicate IsSuccessStatus(status: int) {
    200 <= status <= 299
  }

  /** The key whose presence turns a reply into a fault. */
  const ErrorCodeKey := "errorCode"

  /** An element whose first node is text, as (local name, text); the text is
      taken as it is, untrimmed. */
  function Leaf(n: Node): Option<(string, string)> {
    match FirstText(n)
    case Some(text) => Some((n.name, text))
    case None => None
  }

  function LeafValue(key: string, n: Node): Option<string> {
    match Leaf(n)
    case Some((k, v)) => if k == key then Some(v) else None
    case None => None
  }

  function LeafNamed(key: string): Node -> Option<string> {
    n => LeafValue(key, n)
  }

  function Lookup(m: map<string, string>, key: string): Option<string> {
    if key in m then Some(m[key]) else None
  }

  /** The map after the loop over the elements `els`: every key is the name of
      some leaf, and it holds the text of the LAST leaf of that name. */
  function Flatten(els: seq<Node>): (m: map<string, string>)
    ensures forall key :: Lookup(m, key) == Last(els, LeafNamed(key))
    decreases |els|
  {
    if |els| == 0 then map[]
    else
      var m := Flatten(els[..|els| - 1]);
      match Leaf(els[|els| - 1])
      case Some((k, v)) => m[k := v]
      case None => m
  }

  /** `GetResponse`: a transport failure for a status outside 200-299; no
      result for a success status other than 200; for 200 a fault carrying
      the last `errorCode` text when there is one, and else the map from each
      leaf name to its last text. */
  function GetResponse(resp: Response): (r: Result<Option<map<string, string>>>)
    ensures r == Err(HttpFailure(resp.status)) <==> !IsSuccessStatus(resp.status)
    ensures r == Ok(None) <==> IsSuccessStatus(resp.status) && resp.status != StatusOk
    ensures r.Err? && r.error.Fault? <==>
      resp.status == StatusOk && Last(Elements(resp.document), LeafNamed(ErrorCodeKey)).Some?
    ensures r.Err? && r.error.Fault? ==> r.error.code == Last(Elements(resp.document), LeafNamed(ErrorCodeKey)).value
    ensures r.Err? ==> r.error.Fault? || r.error.HttpFailure?
    ensures resp.status == StatusOk && Last(Elements(resp.document), LeafNamed(ErrorCodeKey)).None? ==>
      r.Ok? && r.value.Some?
    ensures r.Ok? && r.value.Some? ==>
      && resp.status == StatusOk
      && forall key :: Lookup(r.value.value, key) == Last(Elements(resp.document), LeafNamed(key))
  {
    if !IsSuccessStatus(resp.status) then Err(HttpFailure(resp.status))
    else if resp.status != StatusOk then Ok(None)
    else
      var m := Flatten(Elements(resp.document));
      if ErrorCodeKey in m then Err(Fault(m[ErrorCodeKey])) else Ok(Some(m))
  }
}

=== FILE: ssdp.dfy ===
/** Extraction of the device-description URL from the text of an SSDP
    discovery reply (`Gateway.GetLocation`). */
module Ssdp {
  import opened Results
  import opened Strings

  /** Length of the `http://` scheme prefix; the path of a location starts at
      the first `/` from here on. */
  const SchemeLength: nat := 7

  /** Where the path of `url` starts: the first `/` at or after index 7. */
  function PathStart(url: string): (r: Option<nat>)
    ensures r.Some? ==> SchemeLength <= r.value < |url| && url[r.value] == '/'
    ensures r.Some? ==> '/' !in url[SchemeLength..r.value]
    ensures r.None? ==> forall j :: SchemeLength <= j < |url| ==> url[j] != '/'
  {
    var r := IndexOfFrom(url, '/', SchemeLength);
    if r.Some? then
      assert forall c :: c in url[SchemeLength..r.value] ==> c != '/';
      r
    else r
  }

  predicate HasPath(url: string) {
    PathStart(url).Some?
  }

  /** Everything before the path of a location. For an `http://` location
      that is its scheme, host and port; for a longer scheme such as
      `https://` the path start found at index 7 lies inside the scheme, and
      only part of the scheme is kept. */
  function Origin(url: string): (o: string)
    requires HasPath(url)
    ensures |o| >= SchemeLength && StartsWith(url, o)
    ensures |o| < |url| && url[|o|] == '/' && '/' !in o[SchemeLength..]
  {
    url[..PathStart(url).value]
  }

  /** A status line or an SSDP NOTIFY request line, skipped before any header
      parsing. */
  predicate IsStartLine(line: string) {
    StartsWith(line, "HTTP/1.") || StartsWith(line, "NOTIFY *")
  }

  /** The loop over the trimmed, non-empty lines of the reply: the first header
      whose name is `location` decides, and its value must have a path. */
  function FindLocation(lines: seq<string>): (r: Result<string>)
    ensures r.Ok? ==> HasPath(r.value) && IsTrimmed(r.value)
    ensures r.Err? ==> r.error == UnsupportedGateway
    decreases |lines|
  {
    if |lines| == 0 then Err(UnsupportedGateway)
    else
      var line := Trim(lines[0]);
      if |line| == 0 || IsStartLine(line) then FindLocation(lines[1..])
      else match IndexOfFrom(line, ':', 0)
        case None => FindLocation(lines[1..])
        case Some(colon) =>
          var name := line[..colon];
          var value := Trim(line[colon + 1..]);
          if Lower(name) == "location" then
            if HasPath(value) then Ok(value) else Err(UnsupportedGateway)
          else FindLocation(lines[1..])
  }

  /** `GetLocation(data)`: the location of the discovery reply `data`. */
  function GetLocation(data: string): (r: Result<string>)
    ensures r.Ok? ==> HasPath(r.value) && IsTrimmed(r.value)
    ensures r.Err? ==> r.error == UnsupportedGateway
  {
    FindLocation(Split(data, '\n'))
  }

  // ---- The reference reading of a discovery reply, line by line ----

  /** The header name of a line: its text before the first `:`, untrimmed. */
  function HeaderName(t: string): (name: string)
    requires ':' in t
    ensures ':' !in name && StartsWith(t, name) && t[|name|] == ':'
  {
    var c := IndexOfFrom(t, ':', 0).value;
    assert forall j :: 0 <= j < c ==> t[..c][j] == t[j];
    t[..c]
  }

  /** The header value of a line: its text after the first `:`, trimmed. */
  function HeaderValue(t: string): string
    requires ':' in t
  {
    Trim(t[|HeaderName(t)| + 1..])
  }

  /** A raw reply line that carries the location header: once trimmed it is
      not empty and not a start line, and its header name lower-cases to
      `location`. */
  ghost predicate IsLocationLine(raw: string) {
    var t := Trim(raw);
    |t| > 0 && !IsStartLine(t) && ':' in t && Lower(HeaderName(t)) == "location"
  }

  /** Line `i` is the first location line of `lines`. */
  ghost predicate FirstLocationLine(lines: seq<string>, i: int) {
    && 0 <= i < |lines|
    && IsLocationLine(lines[i])
    && forall j :: 0 <= j < i ==> !IsLocationLine(lines[j])
  }

  /** One step of the scan: a line that is not a location line is passed over,
      and a location line ends the scan with its value. */
  lemma ScanStep(lines: seq<string>)
    requires |lines| > 0
    ensures !IsLocationLine(lines[0]) ==> FindLocation(lines) == FindLocation(lines[1..])
    ensures IsLocationLine(lines[0]) ==>
      var v := HeaderValue(Trim(lines[0]));
      FindLocation(lines) == if HasPath(v) then Ok(v) else Err(UnsupportedGateway)
  {
    var t := Trim(lines[0]);
    if |t| > 0 && !IsStartLine(t) && ':' in t {
      var k := IndexOfFrom(t, ':', 0);
      assert k.Some?;
      assert HeaderName(t) == t[..k.value];
      assert HeaderValue(t) == Trim(t[k.value + 1..]);
    }
  }

  /** The location is the value of the first location line when that value
      has a path, and a failure when it has none: later lines are never
      consulted. */
  lemma {:induction false} FindLocationFirst(lines: seq<string>, i: int)
    requires FirstLocationLine(lines, i)
    ensures var v := HeaderValue(Trim(lines[i]));
      FindLocation(lines) == if HasPath(v) then Ok(v) else Err(UnsupportedGateway)
    decreases |lines|
  {
    if i == 0 {
      ScanStep(lines);
    } else {
      FirstLocationLineTail(lines, i);
      ScanStep(lines);
      FindLocationFirst(lines[1..], i - 1);
    }
  }

  /** A first location line past the head is the first one of the tail. */
  lemma FirstLocationLineTail(lines: seq<string>, i: int)
    requires FirstLocationLine(lines, i) && i > 0
    ensures !IsLocationLine(lines[0])
    ensures FirstLocationLine(lines[1..], i - 1) && lines[1..][i - 1] == lines[i]
  {
    var rest := lines[1..];
    forall j | 0 <= j < i - 1 ensures !IsLocationLine(rest[j]) {
      assert rest[j] == lines[j + 1];
    }
  }

  /** Without a location line the reply is rejected. */
  lemma {:induction false} FindLocationNone(lines: seq<string>)
    requires forall j :: 0 <= j < |lines| ==> !IsLocationLine(lines[j])
    ensures FindLocation(lines) == Err(UnsupportedGateway)
    decreases |lines|
  {
    if |lines| > 0 {
      ScanStep(lines);
      FindLocationNone(lines[1..]);
    }
  }

  /** `GetLocation` in terms of the reply's lines: the first location line
      decides, and without one the gateway is unsupported. */
  lemma GetLocationSpec(data: string)
    ensures var lines := Split(data, '\n');
      forall i :: FirstLocationLine(lines, i) ==>
        var v := HeaderValue(Trim(lines[i]));
        GetLocation(data) == if HasPath(v) then Ok(v) else Err(UnsupportedGateway)
    ensures var lines := Split(data, '\n');
      (forall j :: 0 <= j < |lines| ==> !IsLocationLine(lines[j])) ==> GetLocation(data) == Err(UnsupportedGateway)
  {
    var lines := Split(data, '\n');
    forall i | FirstLocationLine(lines, i)
      ensures var v := HeaderValue(Trim(lines[i]));
        GetLocation(data) == if HasPath(v) then Ok(v) else Err(UnsupportedGateway)
    {
      FindLocationFirst(lines, i);
    }
    if forall j :: 0 <= j < |lines| ==> !IsLocationLine(lines[j]) {
      FindLocationNone(lines);
    }
  }
}

=== FILE: strings.dfy ===
/** The pieces of .NET string behaviour the gateway client relies on:
    `Trim`, `IndexOf`, `StartsWith`, `Split`, ASCII case folding and
    case-insensitive `Contains`. */
module Strings {
  import opened Results

  /** The characters `Char.IsWhiteSpace` accepts: the controls U+0009..U+000D,
      U+0085, and the Unicode space, line and paragraph separators. */
  predicate IsWhiteSpace(c: char) {
    var n := c as int;
    || 0x09 <= n <= 0x0D
    || n == 0x20 || n == 0x85 || n == 0xA0 || n == 0x1680
    || 0x2000 <= n <= 0x200A
    || n == 0x2028 || n == 0x2029 || n == 0x202F || n == 0x205F || n == 0x3000
  }

  ghost predicate AllWhite(s: string) {
    forall i :: 0 <= i < |s| ==> IsWhiteSpace(s[i])
  }

  /** A string with no white space at either end. */
  ghost predicate IsTrimmed(t: string) {
    t == [] || (!IsWhiteSpace(t[0]) && !IsWhiteSpace(t[|t| - 1]))
  }

  /** Number of white-space characters at the start of `s`. */
  function LeadingWhite(s: string): (k: nat)
    ensures k <= |s|
    ensures forall i :: 0 <= i < k ==> IsWhiteSpace(s[i])
    ensures k < |s| ==> !IsWhiteSpace(s[k])
    decreases |s|
  {
    if |s| == 0 || !IsWhiteSpace(s[0]) then 0 else 1 + LeadingWhite(s[1..])
  }

  /** Number of white-space characters at the end of `s`. */
  function TrailingWhite(s: string): (k: nat)
    ensures k <= |s|
    ensures forall i :: |s| - k <= i < |s| ==> IsWhiteSpace(s[i])
    ensures k < |s| ==> !IsWhiteSpace(s[|s| - k - 1])
    decreases |s|
  {
    if |s| == 0 || !IsWhiteSpace(s[|s| - 1]) then 0 else 1 + TrailingWhite(s[..|s| - 1])
  }

  /** `String.Trim()`: `s` with its white space removed at both ends. The result
      is the unique trimmed middle of `s` whose surroundings are all white space. */
  function Trim(s: string): (r: string)
    ensures IsTrimmed(r)
    ensures exists a, b :: 0 <= a <= b <= |s| && r == s[a..b] && AllWhite(s[..a]) && AllWhite(s[b..])
  {
    var a := LeadingWhite(s);
    var b := |s| - TrailingWhite(s[a..]);
    assert AllWhite(s[b..]) by {
      forall i | 0 <= i < |s[b..]| ensures IsWhiteSpace(s[b..][i]) {
        assert s[b..][i] == s[a..][i + b - a];
      }
    }
    s[a..b]
  }

  /** Trimming is idempotent. */
  lemma TrimTrimmed(t: string)
    requires IsTrimmed(t)
    ensures Trim(t) == t
  {
    assert LeadingWhite(t) == 0;
    assert TrailingWhite(t) == 0;
  }

  /** ASCII upper case to lower case; every other character is unchanged. */
  function LowerChar(c: char): (d: char)
    ensures 'A' <= c <= 'Z' ==> 'a' <= d <= 'z' && d as int - c as int == 32
    ensures !('A' <= c <= 'Z') ==> d == c
  {
    if 'A' <= c <= 'Z' then (c as int + 32) as char else c
  }

  /** `ToLowerInvariant`, restricted to ASCII case folding. */
  function Lower(s: string): (r: string)
    ensures |r| == |s|
    decreases |s|
  {
    if |s| == 0 then [] else [LowerChar(s[0])] + Lower(s[1..])
  }

  /** Case folding works character by character and keeps the length. */
  lemma {:induction false} LowerSpec(s: string)
    ensures |Lower(s)| == |s|
    ensures forall i :: 0 <= i < |s| ==> Lower(s)[i] == LowerChar(s[i])
    decreases |s|
  {
    if |s| > 0 {
      LowerSpec(s[1..]);
      assert forall i :: 1 <= i < |s| ==> Lower(s)[i] == Lower(s[1..])[i - 1];
    }
  }

  /** `t` is the case folding of `s` when it matches it character by character. */
  lemma LowerEq(s: string, t: string)
    requires |s| == |t| && forall i :: 0 <= i < |s| ==> LowerChar(s[i]) == t[i]
    ensures Lower(s) == t
  {
    LowerSpec(s);
  }

  /** Ordinal `StartsWith`. */
  predicate StartsWith(s: string, prefix: string) {
    |prefix| <= |s| && s[..|prefix|] == prefix
  }

  /** `IndexOf(c, from)`: the first position at or after `from` holding `c`.
      `None` covers both "not found" and a start beyond the end (which .NET
      reports by throwing). */
  function IndexOfFrom(s: string, c: char, from: nat): (r: Option<nat>)
    ensures r.Some? ==> from <= r.value < |s| && s[r.value] == c
    ensures r.Some? ==> forall j :: from <= j < r.value ==> s[j] != c
    ensures r.None? ==> forall j :: from <= j < |s| ==> s[j] != c
    decreases |s| - from
  {
    if from >= |s| then None
    else if s[from] == c then Some(from)
    else IndexOfFrom(s, c, from + 1)
  }

  /** The first occurrence is determined by the text before it. */
  lemma IndexOfAt(s: string, c: char, from: nat, i: nat)
    requires from <= i < |s| && s[i] == c
    requires forall j :: from <= j < i ==> s[j] != c
    ensures IndexOfFrom(s, c, from) == Some(i)
  {
  }

  /** `LastIndexOf(c)`: the last position holding `c`. */
  function LastIndexOf(s: string, c: char): (r: Option<nat>)
    ensures r.Some? ==> r.value < |s| && s[r.value] == c
    ensures r.Some? ==> forall j :: r.value < j < |s| ==> s[j] != c
    ensures r.None? ==> c !in s
    decreases |s|
  {
    if |s| == 0 then None
    else if s[|s| - 1] == c then Some(|s| - 1)
    else LastIndexOf(s[..|s| - 1], c)
  }

  /** The last occurrence is determined by the text after it. */
  lemma LastIndexOfAt(s: string, c: char, i: nat)
    requires i < |s| && s[i] == c
    requires forall j :: i < j < |s| ==> s[j] != c
    ensures LastIndexOf(s, c) == Some(i)
  {
    var r := LastIndexOf(s, c);
    assert r.Some? by { assert s[i] in s; }
  }

  /** `sub` occurs in `s` at position `i` when case is ignored. */
  predicate MatchesIgnoreCaseAt(s: string, sub: string, i: nat) {
    i + |sub| <= |s| && forall k :: 0 <= k < |sub| ==> LowerChar(s[i + k]) == LowerChar(sub[k])
  }

  /** `Contains(sub, InvariantCultureIgnoreCase)`, with ASCII case folding. */
  predicate ContainsIgnoreCase(s: string, sub: string) {
    exists i: nat | i <= |s| - |sub| :: MatchesIgnoreCaseAt(s, sub, i)
  }

  /** Two texts of one length fold to the same text exactly when they agree
      character by character once folded. */
  lemma LowerEqIff(a: string, b: string)
    requires |a| == |b|
    ensures Lower(a) == Lower(b) <==> forall k :: 0 <= k < |a| ==> LowerChar(a[k]) == LowerChar(b[k])
  {
    LowerSpec(a);
    LowerSpec(b);
    if forall k :: 0 <= k < |a| ==> LowerChar(a[k]) == LowerChar(b[k]) {
      forall k | 0 <= k < |a| ensures Lower(a)[k] == Lower(b)[k] { }
    }
  }

  /** Matching at `i` ignoring case is equality once both sides are folded. */
  lemma MatchesIgnoreCaseAtLower(s: string, sub: string, i: nat)
    requires i + |sub| <= |s|
    ensures MatchesIgnoreCaseAt(s, sub, i) <==> Lower(s[i..i + |sub|]) == Lower(sub)
  {
    var w := s[i..i + |sub|];
    LowerEqIff(w, sub);
    assert forall k :: 0 <= k < |sub| ==> w[k] == s[i + k];
  }

  /** The piece of `s` at `i`, folded, is the folded `sub`. */
  predicate FoldedAt(s: string, sub: string, i: nat)
  {
    i + |sub| <= |s| && Lower(s[i..i + |sub|]) == Lower(sub)
  }

  /** `s` contains `sub` ignoring case exactly when the folded `sub` is a
      piece of the folded `s`. */
  lemma ContainsIgnoreCaseSpec(s: string, sub: string)
    ensures ContainsIgnoreCase(s, sub) <==> exists i: nat :: FoldedAt(s, sub, i)
  {
    if ContainsIgnoreCase(s, sub) {
      var i: nat :| i <= |s| - |sub| && MatchesIgnoreCaseAt(s, sub, i);
      MatchesIgnoreCaseAtLower(s, sub, i);
      assert FoldedAt(s, sub, i);
    }
    if exists i: nat :: FoldedAt(s, sub, i) {
      var i: nat :| FoldedAt(s, sub, i);
      MatchesIgnoreCaseAtLower(s, sub, i);
    }
  }

  /** The pieces joined back together with `sep` between them. */
  function Join(parts: seq<string>, sep: char): string
    decreases |parts|
  {
    if |parts| == 0 then []
    else if |parts| == 1 then parts[0]
    else parts[0] + [sep] + Join(parts[1..], sep)
  }

  /** `String.Split(sep)`: the maximal `sep`-free pieces of `s`, empty pieces
      included; joining them with `sep` gives `s` back. */
  function Split(s: string, sep: char): (parts: seq<string>)
    ensures |parts| >= 1
    ensures forall i :: 0 <= i < |parts| ==> sep !in parts[i]
    ensures Join(parts, sep) == s
    decreases |s|
  {
    match IndexOfFrom(s, sep, 0)
    case None => [s]
    case Some(i) =>
      var rest := Split(s[i + 1..], sep);
      assert s == s[..i] + [sep] + s[i + 1..];
      assert ([s[..i]] + rest)[1..] == rest;
      [s[..i]] + rest
  }

  /** A piece without the separator ends the split. */
  lemma SplitLast(a: string, sep: char)
    requires sep !in a
    ensures Split(a, sep) == [a]
  {
    assert IndexOfFrom(a, sep, 0).None?;
  }

  /** The split of `a + [sep] + b` is `a` followed by the split of `b`. */
  lemma SplitFirst(a: string, sep: char, b: string)
    requires sep !in a
    ensures Split(a + [sep] + b, sep) == [a] + Split(b, sep)
  {
    var s := a + [sep] + b;
    assert forall j :: 0 <= j < |a| ==> s[j] == a[j];
    IndexOfAt(s, sep, 0, |a|);
    assert s[..|a|] == a;
    assert s[|a| + 1..] == b;
  }
}

=== FILE: xml.dfy ===
/** A loaded XML document, as the client walks it. Loading and parsing the
    text are done by the XML library and are not modelled: a document is
    the sequence of its top-level nodes. */
module Xml {
  import opened Results

  /** An element carries its local name (the namespace is dropped) and its
      child nodes in order; a text or CDATA node carries its value; comments,
      processing instructions and the like are `Other`. */
  datatype Node =
    | Element(name: string, children: seq<Node>)
    | TextNode(value: string)
    | Other

  /** Every element of the forest `ns` in document order (pre-order): an
      element comes before its descendants, which come before its next sibling. */
  function Elements(ns: seq<Node>): (es: seq<Node>)
    ensures forall i :: 0 <= i < |es| ==> es[i].Element?
    decreases ns
  {
    if |ns| == 0 then []
    else
      var here := match ns[0]
        case Element(_, cs) => [ns[0]] + Elements(cs)
        case _ => [];
      here + Elements(ns[1..])
  }

  /** Pre-order distributes over concatenation of forests. */
  lemma {:induction false} ElementsAppend(a: seq<Node>, b: seq<Node>)
    ensures Elements(a + b) == Elements(a) + Elements(b)
    decreases a
  {
    if |a| > 0 {
      assert (a + b)[0] == a[0];
      assert (a + b)[1..] == a[1..] + b;
      ElementsAppend(a[1..], b);
    } else {
      assert a + b == b;
    }
  }

  /** The elements of a forest with one node in front: that node when it is
      an element, then its descendants, then the elements of the rest. With
      `ElementsAppend` this fixes the order completely. */
  lemma ElementsCons(n: Node, rest: seq<Node>)
    ensures Elements([n] + rest) ==
      (if n.Element? then [n] + Elements(n.children) else []) + Elements(rest)
  {
    assert ([n] + rest)[0] == n;
    assert ([n] + rest)[1..] == rest;
  }

  /** No element is missed: each element of the forest is listed, and so is
      each element below it. */
  lemma {:induction false} ElementsComplete(ns: seq<Node>, i: int)
    requires 0 <= i < |ns| && ns[i].Element?
    ensures ns[i] in Elements(ns)
    ensures forall e :: e in Elements(ns[i].children) ==> e in Elements(ns)
    decreases |ns|
  {
    if i > 0 {
      ElementsComplete(ns[1..], i - 1);
      assert ns[1..][i - 1] == ns[i];
    }
  }

  /** The value of an element's first child node, when that node is text
      (`ele.FirstNode is XText`). */
  function FirstText(n: Node): (r: Option<string>)
    ensures r.Some? <==> n.Element? && |n.children| > 0 && n.children[0].TextNode?
    ensures r.Some? ==> r.value == n.children[0].value
  {
    match n
    case Element(_, cs) => if |cs| > 0 && cs[0].TextNode? then Some(cs[0].value) else None
    case _ => None
  }
}
